=== FILE: README.md ===
# Hospital operations dashboard — client state model

This project models the client-side state logic of a browser dashboard for hospital
operations. The client has two authentication forms: sign-in ("Signin") and
sign-up ("Signup"). After login the user reaches a dashboard whose sidebar
chooses one of four list panels:

- transport scheduling ("AgendamentoTransporte");
- priority management ("GestaoPrioridades");
- patient tracking ("RastreamentoPacientes");
- the incident log ("RegistroIncidentes").

An administration page ("AdminDashboard") and the application's route table
complete the shell.

Each event handler is a pure step function. Every awaited request is a
parameter that says how the request ended: `Net.Outcome` is `Ok(value)` or
`Err` (rejected, caught and logged). A list read answers `Net.Payload`, which
is an array or any other JSON value. A panel handler returns `Step(state,
calls)`: the component state afterwards and the HTTP requests it issued, in
order. The auth forms return a `Forms.Effect`, which holds:

- the inline errors;
- the requests;
- the notification;
- the navigation target;
- the "userData" storage entry;
- the `isSubmitting` flag.

Browser storage is one cell, `Session.Slot`. It is either empty, holds a
serialised user, or holds the text "undefined".

Modules follow the source components:

- `Js`: JavaScript string semantics. It covers the exact white-space set of
  `String.prototype.trim` and the `a || b` fallback.
- `Net`, `Lists`: shared vocabulary, plus `Array.prototype.filter` and a
  conditional `map`.
- `Session`: reading and writing the storage entry.
- `Forms`, `SignupForm`, `SigninForm`: the yup schemas and the submit handlers.
- `TransportPanel`, `PriorityPanel`, `TrackingPanel`, `IncidentPanel`: the four panels.
- `UserDashboard`, `AdminPanel`: the two session guards.
- `AppRoutes`: the route table.
- `Journeys`: properties that cross components.

Behaviour worth knowing:

- Only the transport panel empties its list on a non-array or failed read.
  The priority panel keeps its list. The tracking and incident panels keep it
  on failure, but store a non-array payload as it is (`Net.Listing.NotAList`).
  Their next render then throws.
- The tracking and incident panels do not re-read after a mutation. They
  append or rewrite their local list.
- The sign-up request body is the whole form, `confirmPassword` included.
- Formik hands each empty field to yup as `undefined`. The length, email,
  and confirmation rules skip an undefined value, so an empty field breaks
  only its required rule, and no field ever breaks two rules at once.
- Choosing the filter selector's placeholder entry sets the transport
  filter to "", which hides every request whose status is a known label.
- When a sign-in is accepted but the reply carries no `user`, the text
  "undefined" is stored. The dashboard's guard then throws on its next mount.

## Model

| member | source | states |
|---|---|---|
| Js.BlankIffAllSpace | src/components/dashboardComponents/AgendamentoTransporte.jsx:71 | the `trim() !== ""` guard fails exactly for strings made only of ECMAScript white space and line terminators |
| Js.TrimStart | src/components/dashboardComponents/RegistroIncidentes.jsx:47 | the first half of `trim`: a suffix of the string that is empty or starts with a non-space character, everything cut off being white space |
| Js.TrimEnd | src/components/dashboardComponents/RegistroIncidentes.jsx:47 | the second half of `trim`: a prefix of the string that is empty or ends with a non-space character, everything cut off being white space |
| Js.OrElse | src/components/Signup/index.jsx:73 | `data.message || fallback` gives the message when it is a non-empty string, otherwise the fallback |
| Lists.Filter | src/components/dashboardComponents/AgendamentoTransporte.jsx:84-86 | `filter` keeps, in order, exactly the elements satisfying the predicate, each with its original multiplicity |
| Lists.UpdateWhere | src/components/dashboardComponents/RastreamentoPacientes.jsx:76-78 | a conditional `map` keeps length and order, rewrites every matching element and leaves every other element untouched |
| Lists.UpdateWhereIdempotent | src/components/dashboardComponents/RastreamentoPacientes.jsx:76-78 | applying the conditional `map` twice equals applying it once, when the rewrite keeps items matching and is idempotent |
| Session.Store | src/components/Signin/index.jsx:45 | storing a user yields a readable entry for that user; storing an absent user yields the text "undefined", not an empty entry |
| Session.Load | src/pages/Dashboard/index.jsx:46 | reading storage finds no user exactly when the entry is missing, and throws exactly when it holds "undefined" |
| Session.StoreLoadRoundTrip | src/components/Signin/index.jsx:45 | reading back a stored user returns that user; reading back a stored absent user throws |
| Session.Clear | src/pages/Dashboard/index.jsx:63 | after removal, the next read finds no user |
| Forms.EmailRules | src/components/Signin/index.jsx:25 | the email rules pass exactly for a non-empty well-formed address; an empty value is reported as missing, not as malformed |
| Forms.PasswordRules | src/components/Signin/index.jsx:26-28 | the password rules pass exactly at 6 or more characters; an empty password breaks only the required rule, a shorter non-empty one only the length rule |
| Forms.MessagesDistinct | src/components/Signup/index.jsx:25-32 | the seven schema messages are pairwise distinct, so a message names its rule |
| SignupForm.Violations | src/components/Signup/index.jsx:24-33 | the schema accepts exactly when the name and email are present, the email is well-formed, the password has at least 6 characters and the confirmation equals it; each rule is reported exactly when broken, an empty field only as missing |
| SignupForm.ConfirmRules | src/components/Signup/index.jsx:30-32 | the confirmation passes exactly when it is non-empty and equal to the password; an empty one is reported only as missing |
| SignupForm.OneRulePerField | src/components/Signup/index.jsx:24-33 | no field breaks two rules at once |
| SignupForm.RequestIsWholeForm | src/components/Signup/index.jsx:54 | the request body carries all four fields: two forms send the same request exactly when they agree on every field |
| SignupForm.HandleSignup | src/components/Signup/index.jsx:35-92 | a mismatch shows an error without a request; otherwise one POST; it navigates to /signin only on an ok reply; a failed reply shows the server message or the fallback; storage is never written; `isSubmitting` ends false |
| SignupForm.Submit | src/components/Signup/index.jsx:142-151 | a request is sent exactly when the schema accepts, so the handler's own mismatch check never fires; rejected values show their errors and send nothing; an accepted submission navigates to /signin with the success notice exactly on an ok reply, and otherwise shows the server message, the fallback or the generic text |
| SignupForm.MismatchNeverRequests | src/components/Signup/index.jsx:30-46 | a confirmation that differs from the password never reaches the server; it is reported as a mismatch, or as missing when empty |
| SignupForm.AnaSignsUp | src/components/Signup/index.jsx:59-68 | sign-up of Ana with matching six-character passwords and an accepting server shows the success notice and navigates to /signin |
| SigninForm.Violations | src/components/Signin/index.jsx:24-29 | the schema accepts exactly a non-empty well-formed email with a password of at least 6 characters; an empty field is reported only as missing, a malformed email or short password only as such |
| SigninForm.HandleLogin | src/components/Signin/index.jsx:31-77 | one POST; an ok reply stores `data.user` and navigates to /dashboard; a non-ok reply shows the message or fallback; an exception shows the generic text; neither failure writes storage or navigates; `isSubmitting` ends false |
| SigninForm.Submit | src/components/Signin/index.jsx:127-131 | a request is sent exactly when the schema accepts, and it carries the typed email and password; an accepted submission then has `handleLogin`'s effects: an ok reply stores `data.user` and navigates to /dashboard, any other outcome leaves storage and the router alone and shows the server message, the fallback or the generic text |
| SigninForm.MalformedEmailNeverRequests | src/components/Signin/index.jsx:25 | a malformed email never reaches the server and leaves storage alone |
| SigninForm.RejectedCredentials | src/components/Signin/index.jsx:54-63 | a refused sign-in with message "invalid credentials" shows that message, stores nothing and does not navigate |
| TransportPanel.Init | src/components/dashboardComponents/AgendamentoTransporte.jsx:25-27 | the panel starts with no requests, an empty draft and the "Todos" filter |
| TransportPanel.Parse | src/components/dashboardComponents/AgendamentoTransporte.jsx:111-113 | a label names a status exactly when it is one of Pendente, Aceita and Recusada |
| TransportPanel.Fetch | src/components/dashboardComponents/AgendamentoTransporte.jsx:33-46 | one GET; an array payload replaces the list; a non-array payload or a failed read empties it; the draft and filter are kept |
| TransportPanel.FetchThenShow | src/components/dashboardComponents/AgendamentoTransporte.jsx:33-46 | after a non-array or failed read nothing is shown whatever the filter; under "Todos" an array read shows exactly that array |
| TransportPanel.ShowAllShowsEverything | src/components/dashboardComponents/AgendamentoTransporte.jsx:84-86 | with filter "Todos" the visible list is the fetched list |
| TransportPanel.FilterShowsExactlyMatching | src/components/dashboardComponents/AgendamentoTransporte.jsx:84-86 | with any other filter value, the visible list is the order-preserving subsequence of exactly the requests with that status |
| TransportPanel.PendingScenario | src/components/dashboardComponents/AgendamentoTransporte.jsx:84-86 | three requests, one per status, filtered by "Pendente" show only the pending one |
| TransportPanel.Visible | src/components/dashboardComponents/AgendamentoTransporte.jsx:84-86 | the visible list is an order-preserving subsequence of the fetched list whose every entry has the chosen status, unless the filter is "Todos" |
| TransportPanel.FilterOptionsCoverStatuses | src/components/dashboardComponents/AgendamentoTransporte.jsx:105-114 | the selector offers a placeholder, "Todos" and each status label, every entry once |
| TransportPanel.PlaceholderHidesEveryStatus | src/components/dashboardComponents/AgendamentoTransporte.jsx:105-108 | with the placeholder chosen, no request whose status is a known label is shown |
| TransportPanel.ChooseFilter | src/components/dashboardComponents/AgendamentoTransporte.jsx:105-107 | choosing a filter issues no request and changes nothing but the filter |
| TransportPanel.Offered | src/components/dashboardComponents/AgendamentoTransporte.jsx:158-175 | accept and reject are offered together, and only on requests whose status is Pendente |
| TransportPanel.HandleAccept | src/components/dashboardComponents/AgendamentoTransporte.jsx:48-57 | sends only `status: "Aceita"` for that id; on success one re-read follows; a failed patch leaves the state unchanged |
| TransportPanel.HandleReject | src/components/dashboardComponents/AgendamentoTransporte.jsx:59-68 | sends only `status: "Recusada"` for that id; on success one re-read follows; a failed patch leaves the state unchanged |
| TransportPanel.HandleAdd | src/components/dashboardComponents/AgendamentoTransporte.jsx:70-82 | a blank draft sends nothing and changes nothing; otherwise the draft is posted as typed; on success the draft is cleared and the list re-read once; on failure the state is unchanged |
| TransportPanel.AddTwiceSendsOnce | src/components/dashboardComponents/AgendamentoTransporte.jsx:73-76 | a second add right after a successful one sends nothing |
| PriorityPanel.OptionsAreThePriorities | src/components/dashboardComponents/GestaoPrioridades.jsx:122-124 | the selector offers exactly Baixa, Média and Alta, each once |
| PriorityPanel.Init | src/components/dashboardComponents/GestaoPrioridades.jsx:21-25 | the panel starts with no patients, the name "" and priority Baixa |
| PriorityPanel.Fetch | src/components/dashboardComponents/GestaoPrioridades.jsx:31-44 | one GET; an array payload replaces the list; a non-array payload or a failed read leaves the state unchanged |
| PriorityPanel.HandleChangePriority | src/components/dashboardComponents/GestaoPrioridades.jsx:46-58 | sends only the new priority for that id, then re-reads once; a failed patch changes nothing |
| PriorityPanel.AddPatient | src/components/dashboardComponents/GestaoPrioridades.jsx:60-78 | a blank name sends nothing; otherwise name and priority are posted; on success the draft resets to "" / Baixa and the list is re-read once |
| PriorityPanel.RemovePatient | src/components/dashboardComponents/GestaoPrioridades.jsx:80-89 | deletes that id, then re-reads once; a failed delete changes nothing |
| PriorityPanel.Render | src/components/dashboardComponents/GestaoPrioridades.jsx:104-139 | an empty list shows "Nenhum paciente encontrado."; otherwise the rows are shown |
| PriorityPanel.BadReadKeepsRows | src/components/dashboardComponents/GestaoPrioridades.jsx:36-40 | a non-array or failed read never empties rows already on screen |
| TrackingPanel.OptionsAreTheStatuses | src/components/dashboardComponents/RastreamentoPacientes.jsx:127-131 | the selector offers exactly the three tracking states, each once |
| TrackingPanel.Init | src/components/dashboardComponents/RastreamentoPacientes.jsx:21-25 | the panel starts with an empty list, the name "" and status "Aguardando transporte" |
| TrackingPanel.Fetch | src/components/dashboardComponents/RastreamentoPacientes.jsx:32-41 | one GET; the payload replaces the list, array or not; a failed read leaves the state unchanged |
| TrackingPanel.AddTracking | src/components/dashboardComponents/RastreamentoPacientes.jsx:43-64 | a blank name sends nothing; otherwise one POST; on success the server record is appended last and the draft resets; a failed post or a non-array list changes nothing |
| TrackingPanel.SetStatus | src/components/dashboardComponents/RastreamentoPacientes.jsx:76-78 | length and order are kept; every record with the id gets the new status; every other record is unchanged |
| TrackingPanel.UpdateStatus | src/components/dashboardComponents/RastreamentoPacientes.jsx:66-83 | sends only the new status for that id; on success the local list is rewritten by id; a failed patch or a non-array list changes nothing |
| TrackingPanel.SetStatusIdempotent | src/components/dashboardComponents/RastreamentoPacientes.jsx:75-79 | setting the same status twice equals setting it once |
| TrackingPanel.SetStatusKeepsIdentities | src/components/dashboardComponents/RastreamentoPacientes.jsx:76-78 | a status update keeps every record's id and name in place |
| TrackingPanel.Render | src/components/dashboardComponents/RastreamentoPacientes.jsx:98 | the render throws exactly when the list field holds a non-array |
| TrackingPanel.NonArrayReadBreaksRender | src/components/dashboardComponents/RastreamentoPacientes.jsx:37 | a read answered with a non-array breaks the next render |
| TrackingPanel.AddThenUpdate | src/components/dashboardComponents/RastreamentoPacientes.jsx:43-83 | a successful add shows the old rows followed by the server record, and a status update of that new id rewrites that last row alone |
| IncidentPanel.Init | src/components/dashboardComponents/RegistroIncidentes.jsx:23-27 | the log starts empty, with both draft fields "" |
| IncidentPanel.Fetch | src/components/dashboardComponents/RegistroIncidentes.jsx:34-43 | one GET; the payload replaces the list, array or not; a failed read leaves the state unchanged |
| IncidentPanel.Render | src/components/dashboardComponents/RegistroIncidentes.jsx:113 | the render throws exactly when the list field holds a non-array, and otherwise shows the stored rows |
| IncidentPanel.ReadDecidesRender | src/components/dashboardComponents/RegistroIncidentes.jsx:34-43 | a non-array read breaks the next render, an array read shows exactly that array, a failed read changes nothing on screen |
| IncidentPanel.AddIncident | src/components/dashboardComponents/RegistroIncidentes.jsx:45-65 | nothing is sent unless both fields are non-blank; on success the server record is appended last and both fields are cleared; a failure changes nothing |
| IncidentPanel.ReadyIffBothHaveText | src/components/dashboardComponents/RegistroIncidentes.jsx:47 | the add guard holds exactly when both the description and the reporter contain a character `trim` keeps |
| IncidentPanel.WithoutId | src/components/dashboardComponents/RegistroIncidentes.jsx:74 | the local removal drops exactly the records with that id and keeps the others in order |
| IncidentPanel.RemoveIncident | src/components/dashboardComponents/RegistroIncidentes.jsx:67-79 | one DELETE; on success the records with that id leave the list; a failed delete or a non-array list changes nothing |
| IncidentPanel.RemoveTwiceIsRemoveOnce | src/components/dashboardComponents/RegistroIncidentes.jsx:74 | removing the same id twice leaves the same list as removing it once |
| IncidentPanel.RemoveUndoesAdd | src/components/dashboardComponents/RegistroIncidentes.jsx:56-75 | adding a record with a new id and then removing that id restores the previous list |
| UserDashboard.Init | src/pages/Dashboard/index.jsx:36-37 | the dashboard starts with the selection null, showing the hint, and no user |
| UserDashboard.OnMount | src/pages/Dashboard/index.jsx:45-52 | a stored user becomes `user`; no stored user navigates to /signin and changes nothing; unparsable storage throws |
| UserDashboard.Choose | src/pages/Dashboard/index.jsx:54-60 | each sidebar handler selects its own panel and leaves the user alone |
| UserDashboard.Render | src/pages/Dashboard/index.jsx:74-91 | a panel is shown exactly when the selection is one of the four names, and it is the panel of that name; anything else shows the hint |
| UserDashboard.NamesDistinct | src/pages/Dashboard/index.jsx:75-83 | the four panel names are distinct |
| UserDashboard.HandleLogout | src/pages/Dashboard/index.jsx:62-72 | logout removes the stored user and navigates to /signin |
| AdminPanel.Init | src/components/admin/AdminDashboard.jsx:24 | the role starts null, so nothing is rendered |
| AdminPanel.OnMount | src/components/admin/AdminDashboard.jsx:28-35 | no stored user navigates to /signin; a stored user's role becomes `userRole`; unparsable storage throws |
| AdminPanel.Render | src/components/admin/AdminDashboard.jsx:49-51 | nothing is rendered exactly while `userRole` is null |
| AdminPanel.GateAfterMount | src/components/admin/AdminDashboard.jsx:28-51 | after mounting, the tabs appear exactly when a user is stored and its role is not null |
| AdminPanel.HandleLogout | src/components/admin/AdminDashboard.jsx:37-47 | logout removes the stored user and navigates to /signin |
| AppRoutes.Resolve | src/App.jsx:17-23 | each route is selected exactly when its pattern matches the path; anything else falls to the catch-all |
| AppRoutes.PatternsDisjoint | src/App.jsx:17-23 | no path matches two route patterns, so every path resolves to exactly one route |
| AppRoutes.ElementOf | src/App.jsx:18-22 | the sign-in, sign-up and dashboard routes render the Signin, Signup and Dashboard pages respectively; exactly "/" and "*" redirect, both to /signin |
| AppRoutes.KnownPaths | src/App.jsx:18-21 | /signin, /signup and /dashboard select their own routes and render the Signin, Signup and Dashboard pages; "/" selects the root redirect |
| AppRoutes.OneRedirectAtMost | src/App.jsx:21-22 | every path reaches a page after at most one redirect, which lands on the sign-in page |
| AppRoutes.MixedCaseSignin | src/App.jsx:18 | every path that differs from /signin only in letter case, followed by any number of slashes, selects the sign-in route |
| AppRoutes.TrimAppendedSlashes | src/App.jsx:18-20 | the trailing slashes the router ignores are exactly those appended to a path not ending in one |
| AppRoutes.MixedCaseExample | src/App.jsx:18 | "/SignIn//" selects the sign-in route |
| Journeys.LoginReachesDashboard | src/components/Signin/index.jsx:43-53 | an accepted sign-in navigates to a path that resolves to the dashboard, whose guard then holds the returned user |
| Journeys.LoginWithoutUserBreaksDashboard | src/components/Signin/index.jsx:45 | an accepted sign-in with no `user` in the reply makes the dashboard's next mount throw |
| Journeys.RefusedLoginKeepsSession | src/components/Signin/index.jsx:54-63 | a refused sign-in leaves the dashboard guard's verdict exactly as it was |
| Journeys.LogoutSendsToSignin | src/pages/Dashboard/index.jsx:62-72 | after logout from either dashboard, the next guard redirects to /signin, that path shows the sign-in page, and the admin page renders nothing |

## Left out

- HTTP transport, base URLs and JSON parsing are left out. The servers differ per panel, and some URLs have a leading space. Each request is an abstract outcome parameter.
- Notification duration, layout, colours, icons, animation and responsive breakpoints are left out, because they are presentation only.
- The `moment` date formatting of incidents is left out. `createdAt` is carried as opaque text.
- yup's email pattern is the parameter `isEmail`.
- String lengths are counted in Unicode scalar values. yup's `min(6)` counts UTF-16 code units, so the two differ for characters outside the Basic Multilingual Plane.
- Typing into inputs (`onChange`, the class panels' `handleChange`) is left out. Draft fields are taken as they stand when a handler runs.
- The re-read after a mutation is not awaited in the source, and handlers read state captured before their `await`. Handlers are modelled as atomic sequential steps, so interleavings and late updates after unmount are not modelled.
- A non-array payload is modelled as a value that is not iterable, such as an object or `null`. A string payload is not modelled: it could be spread character by character.
- SigninForm.Submit / SignupForm.Submit: the browser's own `type="email"` constraint check is not modelled. The forms render a plain `<form>` without `noValidate`, so for a non-empty address the browser rejects, the submit event is blocked before Formik runs. No schema errors are then shown for untouched fields and `isSubmitting` never changes. The model instead reports every schema violation. In both cases no request is sent.
- SigninForm.HandleLogin: a response body that is JSON `null` is not modelled. Reading `data.user` or `data.message` from it throws inside the `try`, which gives the generic failure toast with no storage write and no navigation, the same effect as the `Threw` reply.
- SignupForm.HandleSignup: a non-ok response whose body is JSON `null` is not modelled. Reading `data.message` throws there, which gives the same effect as the `Threw` reply.
- A `user` that is `null` or not an object, and a `message` that is not a string, are not modelled.
- React Router's percent-decoding of paths and basenames are left out. The route table has no basename.
- The sidebar's rendering, the greeting with the user's name, and the "already have an account" / "no account" link buttons are left out, because they are navigation chrome.

=== FILE: admin.dfy ===
/** The administration page: a session guard that records the stored
    user's role, a render gate on that role, and logout. */
module AdminPanel {
  import opened Js
  import opened Net
  import opened Session

  /** `userRole`, `null` until the guard has read a user. */
  datatype State = State(userRole: Nullable)

  function Init(): (s: State)
    ensures Render(s) == Nothing
  {
    State(Null)
  }

  /** The mount guard: no stored user sends the router to the sign-in page;
      a stored user's role (whatever it is) becomes `userRole`. */
  function OnMount(s: State, slot: Slot): (r: Mount<State>)
    ensures r.Crashed? <==> Load(slot).Err?
    ensures slot == Empty ==> r == Mounted(s, Some(SigninPath))
    ensures slot.Saved? ==> r == Mounted(State(slot.user.role), None)
  {
    match Load(slot)
    case Err => Crashed
    case Ok(None) => Mounted(s, Some(SigninPath))
    case Ok(Some(u)) => Mounted(State(u.role), None)
  }

  /** What the page renders. */
  datatype View = Nothing | Tabs

  /** The render gate: nothing at all while `userRole` is `null`; an
      absent role (`undefined`) is not `null` and opens the gate. */
  function Render(s: State): (v: View)
    ensures v == Nothing <==> s.userRole == Null
  {
    if s.userRole == Null then Nothing else Tabs
  }

  /** After mounting from storage: without a user, or with a user whose
      role is `null`, the page stays blank; otherwise the tabs appear. */
  lemma GateAfterMount(slot: Slot)
    requires slot != SavedUndefined
    ensures var m := OnMount(Init(), slot);
            m.Mounted? && (Render(m.state) == Tabs <==> slot.Saved? && slot.user.role != Null)
  {
  }

  /** `handleLogout`: removes the stored user and goes to the sign-in page. */
  function HandleLogout(slot: Slot): (r: Logout)
    ensures Load(r.slot) == Ok(None)
    ensures r.navigate == SigninPath && r.toast.kind == Success
  {
    Logout(Clear(), Toast(Success, "Logout bem-sucedido.", "Você saiu com sucesso."), SigninPath)
  }
}

=== FILE: dashboard.dfy ===
/** The user dashboard page: a session guard run on mount, a sidebar whose
    four entries choose which panel is shown, and logout. */
module UserDashboard {
  import opened Js
  import Net
  import opened Session

  /** The four panels of the sidebar. */
  datatype Panel = Transport | Tracking | Priorities | Incidents

  /** The name the sidebar handlers store for each panel. */
  function Name(p: Panel): string {
    match p
    case Transport => "AgendamentoTransporte"
    case Tracking => "RastreamentoPacientes"
    case Priorities => "GestaoPrioridades"
    case Incidents => "RegistroIncidentes"
  }

  /** `selectedComponent` (`None` is `null`) and `user`. */
  datatype State = State(selected: Option<string>, user: Option<User>)

  /** Nothing chosen, no user yet. */
  function Init(): (s: State)
    ensures s.selected == None && s.user == None
    ensures Render(s) == Hint
  {
    State(None, None)
  }

  /** The mount guard: a stored user becomes `user`; no stored user sends
      the router to the sign-in page and leaves the state alone. */
  function OnMount(s: State, slot: Slot): (r: Mount<State>)
    ensures r.Crashed? <==> Load(slot).Err?
    ensures slot.Saved? ==> r == Mounted(s.(user := Some(slot.user)), None)
    ensures slot == Empty ==> r == Mounted(s, Some(SigninPath))
  {
    var stored := Load(slot);
    if stored.Err? then Crashed
    else if stored.value.None? then Mounted(s, Some(SigninPath))
    else Mounted(s.(user := stored.value), None)
  }

  /** The four sidebar handlers: each stores its own panel's name and
      changes nothing else. */
  function Choose(s: State, p: Panel): (r: State)
    ensures Render(r) == Show(p)
    ensures r.user == s.user
  {
    s.(selected := Some(Name(p)))
  }

  /** What the main area shows. */
  datatype Content = Show(panel: Panel) | Hint

  /** `renderComponent`: the panel whose name is selected, otherwise the
      "Selecione uma funcionalidade no menu à esquerda." hint. */
  function Render(s: State): (c: Content)
    ensures c.Show? <==> s.selected.Some? && exists p: Panel :: Name(p) == s.selected.value
    ensures c.Show? ==> s.selected == Some(Name(c.panel))
  {
    match s.selected
    case Some(n) =>
      if n == Name(Transport) then Show(Transport)
      else if n == Name(Tracking) then Show(Tracking)
      else if n == Name(Priorities) then Show(Priorities)
      else if n == Name(Incidents) then Show(Incidents)
      else Hint
    case None => Hint
  }

  /** Distinct panels have distinct names, so a choice is never shadowed by
      another panel's case. */
  lemma NamesDistinct(p: Panel, q: Panel)
    ensures Name(p) == Name(q) ==> p == q
  {
  }

  /** `handleLogout`: removes the stored user and goes to the sign-in page,
      whatever was stored. */
  function HandleLogout(slot: Slot): (r: Logout)
    ensures Load(r.slot) == Net.Ok(None)
    ensures r.navigate == SigninPath && r.toast.kind == Success
  {
    Logout(Clear(), Toast(Success, "Logout bem-sucedido", "Você saiu com sucesso."), SigninPath)
  }
}

=== FILE: forms.dfy ===
/** What the two authentication forms share: the validation rules their yup
    schemas declare, the reply of the auth endpoint, and the effect of one
    submission. */
module Forms {
  import opened Js
  import opened Session

  /** One validation rule of a schema, named after the check it makes. */
  datatype Rule =
    | NameRequired
    | EmailRequired
    | EmailInvalid
    | PasswordRequired
    | PasswordTooShort
    | ConfirmRequired
    | ConfirmMismatch

  /** The inline message a broken rule shows under its field. */
  function Message(rule: Rule): string {
    match rule
    case NameRequired => "Nome é obrigatório"
    case EmailRequired => "Email é obrigatório"
    case EmailInvalid => "Email inválido"
    case PasswordRequired => "Senha é obrigatória"
    case PasswordTooShort => "Senha muito curta - deve ter no mínimo 6 caracteres"
    case ConfirmRequired => "Confirmação de senha é obrigatória"
    case ConfirmMismatch => "Senhas devem coincidir"
  }

  const MinPasswordLength := 6

  /** `string().email().required()`: an empty value is missing, not malformed
      (Formik hands it to yup as `undefined`, which the email test skips). `isEmail` stands for yup's email
      pattern. */
  function EmailRules(email: string, isEmail: string -> bool): (r: set<Rule>)
    ensures r <= {EmailRequired, EmailInvalid}
    ensures r == {} <==> email != "" && isEmail(email)
    ensures EmailRequired in r <==> email == ""
    ensures EmailInvalid in r <==> email != "" && !isEmail(email)
  {
    if email == "" then {EmailRequired}
    else if isEmail(email) then {}
    else {EmailInvalid}
  }

  /** `string().min(6).required()`. Formik hands yup an empty field as
      `undefined`, which `min` skips, so an empty password breaks only the
      required rule and a non-empty one only the length rule. */
  function PasswordRules(password: string): (r: set<Rule>)
    ensures r <= {PasswordRequired, PasswordTooShort}
    ensures r == {} <==> |password| >= MinPasswordLength
    ensures PasswordRequired in r <==> password == ""
    ensures PasswordTooShort in r <==> 0 < |password| < MinPasswordLength
  {
    if password == "" then {PasswordRequired}
    else if |password| < MinPasswordLength then {PasswordTooShort}
    else {}
  }

  /** Each rule shows its own message, so the message under a field names
      the rule it broke. */
  lemma MessagesDistinct(a: Rule, b: Rule)
    ensures Message(a) == Message(b) <==> a == b
  {
  }

  /** The JSON body of the auth endpoint's response. */
  datatype Data = Data(message: Option<string>, user: Option<User>)

  /** How the `fetch` of an auth endpoint ended: a response whose body parsed
      as JSON (with `response.ok`), or an exception from the network or from
      `response.json()`. */
  datatype Reply = Replied(ok: bool, data: Data) | Threw

  /** A POST to an auth endpoint, with the JSON it sends. */
  datatype AuthCall =
    | SignupPost(name: string, email: string, password: string, confirmPassword: string)
    | SigninPost(email: string, password: string)

  /** The effect of one submission: the inline errors shown, the requests
      issued, the notification, where the router goes, the storage entry
      afterwards, and the form's `isSubmitting` flag. */
  datatype Effect = Effect(
    errors: set<Rule>,
    calls: seq<AuthCall>,
    toast: Option<Toast>,
    navigate: Option<string>,
    slot: Slot,
    submitting: bool)

  /** Formik's reaction to a schema failure: the errors are shown, `onSubmit`
      is not called. */
  function Rejected(errors: set<Rule>, slot: Slot): Effect {
    Effect(errors, [], None, None, slot, false)
  }
}

=== FILE: incidents.dfy ===
/** The incident log: the records of the "incidents" collection, plus a
    draft description and reporter name. Records are appended and removed
    locally after the server acknowledges; there is no update. Like the
    tracking panel, it stores a list payload without checking it. */
module IncidentPanel {
  import opened Js
  import opened Net
  import Lists

  /** An incident as the server returns it. */
  datatype Incident = Incident(id: string, description: string, registeredBy: string, createdAt: string)

  datatype State = State(incidents: Listing<Incident>, newIncident: string, registeredBy: string)

  function Init(): (s: State)
    ensures s.incidents == Rows([])
    ensures s.newIncident == "" && s.registeredBy == ""
  {
    State(Rows([]), "", "")
  }

  /** `fetchIncidents`: whatever the read returns replaces the list, array
      or not; a failed read leaves it as it was. */
  function Fetch(s: State, reply: Outcome<Payload<Incident>>): (r: Step<State>)
    ensures r.calls == [Get(Incidents)]
    ensures reply == Ok(NonArray) ==> r.state == s.(incidents := NotAList)
    ensures reply.Ok? && reply.value.Array? ==> r.state == s.(incidents := Rows(reply.value.items))
    ensures reply.Err? ==> r.state == s
  {
    match reply
    case Ok(Array(items)) => Step(s.(incidents := Rows(items)), [Get(Incidents)])
    case Ok(NonArray) => Step(s.(incidents := NotAList), [Get(Incidents)])
    case Err => Step(s, [Get(Incidents)])
  }

  /** What the log renders: the rows, or a render error when the list field
      holds a non-array (`incidents.map` is not a function). */
  datatype View = IncidentRows(rows: seq<Incident>) | RenderCrash

  function Render(s: State): (v: View)
    ensures v.RenderCrash? <==> s.incidents.NotAList?
    ensures v.IncidentRows? ==> s.incidents == Rows(v.rows)
  {
    match s.incidents
    case Rows(items) => IncidentRows(items)
    case NotAList => RenderCrash
  }

  /** A read that answers with a non-array breaks the next render, whatever
      was on screen before; the next array read repairs it, and a failed
      read changes nothing on screen. */
  lemma ReadDecidesRender(s: State, items: seq<Incident>)
    ensures Render(Fetch(s, Ok(NonArray)).state) == RenderCrash
    ensures Render(Fetch(s, Ok(Array(items))).state) == IncidentRows(items)
    ensures Render(Fetch(s, Err).state) == Render(s)
  {
  }

  /** The add button's guard: both fields must have a non-space character. */
  predicate Ready(s: State) {
    !IsBlank(s.newIncident) && !IsBlank(s.registeredBy)
  }

  /** `handleAddIncident`: unless both fields are filled in, nothing is sent.
      Otherwise both are posted; when the server answers, its record is
      appended at the end and both fields are cleared. A failed post, or a
      list that is not an array, leaves the state alone. */
  function AddIncident(s: State, post: Outcome<Incident>): (r: Step<State>)
    ensures !Ready(s) ==> r == Step(s, [])
    ensures Ready(s) ==> r.calls == [Post(Incidents, NewIncident(s.newIncident, s.registeredBy))]
    ensures Ready(s) && post.Ok? && s.incidents.Rows? ==>
              r.state == State(Rows(s.incidents.items + [post.value]), "", "")
    ensures post.Err? || s.incidents.NotAList? ==> r.state == s
  {
    if !Ready(s) then Step(s, [])
    else
      var call := Post(Incidents, NewIncident(s.newIncident, s.registeredBy));
      match (post, s.incidents)
      case (Ok(record), Rows(items)) => Step(State(Rows(items + [record]), "", ""), [call])
      case _ => Step(s, [call])
  }

  /** The guard, stated on characters: each field holds a character that
      `trim` does not remove. */
  lemma ReadyIffBothHaveText(s: State)
    ensures Ready(s) <==> !AllSpace(s.newIncident) && !AllSpace(s.registeredBy)
  {
    BlankIffAllSpace(s.newIncident);
    BlankIffAllSpace(s.registeredBy);
  }

  /** The local edit after a delete: `incidents.filter(i => i._id !== id)`. */
  function WithoutId(items: seq<Incident>, id: string): (r: seq<Incident>)
    ensures Lists.IsSubsequence(r, items)
    ensures forall i :: 0 <= i < |r| ==> r[i].id != id
    ensures forall x :: multiset(r)[x] == if x.id == id then 0 else multiset(items)[x]
  {
    Lists.Filter(items, (inc: Incident) => inc.id != id)
  }

  /** `handleRemoveIncident`: deletes that id; on success the records with
      that id leave the local list and the others stay in order. A failed
      delete, or a list that is not an array, leaves the state alone. */
  function RemoveIncident(s: State, id: string, del: Outcome<()>): (r: Step<State>)
    ensures r.calls == [Delete(Incidents, id)]
    ensures r.state.newIncident == s.newIncident && r.state.registeredBy == s.registeredBy
    ensures del.Ok? && s.incidents.Rows? ==> r.state.incidents == Rows(WithoutId(s.incidents.items, id))
    ensures del.Err? || s.incidents.NotAList? ==> r.state == s
  {
    match (del, s.incidents)
    case (Ok(_), Rows(items)) => Step(s.(incidents := Rows(WithoutId(items, id))), [Delete(Incidents, id)])
    case _ => Step(s, [Delete(Incidents, id)])
  }

  /** Removing the same id twice leaves the same list as removing it once. */
  lemma RemoveTwiceIsRemoveOnce(s: State, id: string, del1: Outcome<()>, del2: Outcome<()>)
    requires del1.Ok?
    ensures var once := RemoveIncident(s, id, del1).state;
            RemoveIncident(once, id, del2).state == once
  {
    if s.incidents.Rows? {
      Lists.FilterIdempotent(s.incidents.items, (inc: Incident) => inc.id != id);
    }
  }

  /** Adding a record the list did not contain and then removing its id
      gives back the list from before the add. */
  lemma RemoveUndoesAdd(s: State, record: Incident, del: Outcome<()>)
    requires Ready(s) && s.incidents.Rows? && del.Ok?
    requires forall i :: 0 <= i < |s.incidents.items| ==> s.incidents.items[i].id != record.id
    ensures var added := AddIncident(s, Ok(record)).state;
            RemoveIncident(added, record.id, del).state.incidents == s.incidents
  {
    var items := s.incidents.items;
    var keep := (inc: Incident) => inc.id != record.id;
    Lists.FilterKeepsAll(items, keep);
    Lists.FilterDropsLast(items, record, keep);
  }
}

=== FILE: journeys.dfy ===
/** Properties of whole user journeys, where one component's effect (a
    storage write, a navigation) is the next component's input. */
module Journeys {
  import opened Js
  import opened Session
  import Forms
  import SigninForm
  import UserDashboard
  import AdminPanel
  import AppRoutes

  /** A sign-in the server accepts leads to the dashboard route, and the
      dashboard's guard then shows the user the server returned. */
  lemma LoginReachesDashboard(v: SigninForm.Values, isEmail: string -> bool, slot: Slot,
                              message: Option<string>, user: User)
    requires SigninForm.Acceptable(v, isEmail)
    ensures var r := SigninForm.Submit(v, isEmail, slot, Forms.Replied(true, Forms.Data(message, Some(user))));
            && r.navigate == Some(DashboardPath)
            && AppRoutes.Resolve(r.navigate.value) == AppRoutes.DashboardRoute
            && UserDashboard.OnMount(UserDashboard.Init(), r.slot)
                 == Mounted(UserDashboard.State(None, Some(user)), None)
  {
  }

  /** An accepted sign-in whose body carries no user stores the text
      "undefined", and the dashboard it navigates to then throws on mount. */
  lemma LoginWithoutUserBreaksDashboard(v: SigninForm.Values, isEmail: string -> bool, slot: Slot,
                                        message: Option<string>)
    requires SigninForm.Acceptable(v, isEmail)
    ensures var r := SigninForm.Submit(v, isEmail, slot, Forms.Replied(true, Forms.Data(message, None)));
            UserDashboard.OnMount(UserDashboard.Init(), r.slot) == Crashed
  {
  }

  /** A refused sign-in leaves storage as it was: whoever the guard admitted
      before is admitted again, and nobody new is. */
  lemma RefusedLoginKeepsSession(v: SigninForm.Values, isEmail: string -> bool, slot: Slot,
                                 data: Forms.Data, s: UserDashboard.State)
    ensures var r := SigninForm.Submit(v, isEmail, slot, Forms.Replied(false, data));
            UserDashboard.OnMount(s, r.slot) == UserDashboard.OnMount(s, slot)
  {
  }

  /** After logout from either dashboard, the next guard redirects to the
      sign-in path, and that path shows the sign-in page. */
  lemma LogoutSendsToSignin(before: Slot, s: UserDashboard.State, a: AdminPanel.State)
    ensures var out := UserDashboard.HandleLogout(before);
            && UserDashboard.OnMount(s, out.slot) == Mounted(s, Some(SigninPath))
            && AppRoutes.ElementOf(AppRoutes.Resolve(out.navigate)) == AppRoutes.Render(AppRoutes.SigninPage)
    ensures var out := AdminPanel.HandleLogout(before);
            && AdminPanel.OnMount(a, out.slot) == Mounted(a, Some(SigninPath))
            && AdminPanel.Render(AdminPanel.OnMount(AdminPanel.Init(), out.slot).state) == AdminPanel.Nothing
  {
  }
}

=== FILE: js.dfy ===
/** The few pieces of JavaScript value semantics the components rely on:
    optional values, `undefined`/`null`/string fields, `String.prototype.trim`
    and the `a || b` fallback on strings. */
module Js {

  /** A value that may be missing (`undefined` in the source). */
  datatype Option<+T> = None | Some(value: T)

  /** A JSON field that is absent, `null`, or a string. */
  datatype Nullable = Undefined | Null | Str(text: string)

  /** The characters `String.prototype.trim` removes (ECMAScript WhiteSpace and
      LineTerminator): TAB, LF, VT, FF, CR, SPACE, NBSP, OGHAM SPACE MARK,
      U+2000..U+200A, LS, PS, NNBSP, MMSP, IDEOGRAPHIC SPACE and ZWNBSP. */
  predicate IsSpace(c: char) {
    || c == '\U{9}' || c == '\U{A}' || c == '\U{B}' || c == '\U{C}' || c == '\U{D}'
    || c == ' ' || c == '\U{A0}' || c == '\U{1680}'
    || ('\U{2000}' <= c <= '\U{200A}')
    || c == '\U{2028}' || c == '\U{2029}' || c == '\U{202F}' || c == '\U{205F}'
    || c == '\U{3000}' || c == '\U{FEFF}'
  }

  predicate AllSpace(s: string) {
    forall i :: 0 <= i < |s| ==> IsSpace(s[i])
  }

  /** `s` without its leading white space: a suffix of `s` that starts with a
      non-space character, everything cut off being white space. */
  function TrimStart(s: string): (r: string)
    ensures |r| <= |s| && r == s[|s| - |r|..]
    ensures AllSpace(s[..|s| - |r|])
    ensures r == [] || !IsSpace(r[0])
  {
    if s != [] && IsSpace(s[0]) then TrimStart(s[1..]) else s
  }

  /** `s` without its trailing white space: a prefix of `s` that ends with a
      non-space character, everything cut off being white space. */
  function TrimEnd(s: string): (r: string)
    ensures |r| <= |s| && r == s[..|r|]
    ensures AllSpace(s[|r|..])
    ensures r == [] || !IsSpace(r[|r| - 1])
  {
    if s != [] && IsSpace(s[|s| - 1]) then TrimEnd(s[..|s| - 1]) else s
  }

  /** `String.prototype.trim`: both ends cut. */
  function Trim(s: string): string {
    TrimEnd(TrimStart(s))
  }

  /** The draft guard of every add handler: `s.trim() === ""`. */
  predicate IsBlank(s: string) {
    Trim(s) == ""
  }

  /** The guard fires exactly for the strings made of white space only. */
  lemma BlankIffAllSpace(s: string)
    ensures IsBlank(s) <==> AllSpace(s)
  {
  }

  /** `message || fallback` for a string field: an absent or empty message
      gives the fallback. */
  function OrElse(message: Option<string>, fallback: string): (r: string)
    ensures r == fallback || (message == Some(r) && r != "")
    ensures message.Some? && message.value != "" ==> r == message.value
  {
    match message
    case Some(m) => if m != "" then m else fallback
    case None => fallback
  }
}

=== FILE: lists.dfy ===
/** The two array operations the panels apply to their local lists:
    `Array.prototype.filter` and a `map` that rewrites the matching items. */
module Lists {

  /** `a` is obtained from `b` by deleting elements, keeping the order. */
  ghost predicate IsSubsequence<T>(a: seq<T>, b: seq<T>)
    decreases |b|
  {
    if a == [] then true
    else if b == [] then false
    else (a[0] == b[0] && IsSubsequence(a[1..], b[1..])) || IsSubsequence(a, b[1..])
  }

  /** `xs.filter(keep)`: the order-preserving subsequence of exactly the
      elements satisfying `keep`, each with its multiplicity in `xs`. */
  function Filter<T(!new)>(xs: seq<T>, keep: T -> bool): (r: seq<T>)
    ensures IsSubsequence(r, xs)
    ensures forall i :: 0 <= i < |r| ==> keep(r[i])
    ensures forall x :: multiset(r)[x] == if keep(x) then multiset(xs)[x] else 0
  {
    if xs == [] then []
    else
      assert xs == [xs[0]] + xs[1..];
      var rest := Filter(xs[1..], keep);
      if keep(xs[0]) then
        assert ([xs[0]] + rest)[1..] == rest;
        [xs[0]] + rest
      else
        rest
  }

  /** A filter that keeps every element returns the list unchanged. */
  lemma {:induction false} FilterKeepsAll<T(!new)>(xs: seq<T>, keep: T -> bool)
    requires forall i :: 0 <= i < |xs| ==> keep(xs[i])
    ensures Filter(xs, keep) == xs
  {
    if xs != [] {
      FilterKeepsAll(xs[1..], keep);
    }
  }

  /** Filtering twice by the same predicate is filtering once. */
  lemma {:induction false} FilterIdempotent<T(!new)>(xs: seq<T>, keep: T -> bool)
    ensures Filter(Filter(xs, keep), keep) == Filter(xs, keep)
  {
    FilterKeepsAll(Filter(xs, keep), keep);
  }

  /** Filtering `xs + [x]` when `x` is dropped is filtering `xs`. */
  lemma {:induction false} FilterDropsLast<T(!new)>(xs: seq<T>, x: T, keep: T -> bool)
    requires !keep(x)
    ensures Filter(xs + [x], keep) == Filter(xs, keep)
  {
    if xs == [] {
      assert [x][1..] == [];
    } else {
      assert (xs + [x])[1..] == xs[1..] + [x];
      FilterDropsLast(xs[1..], x, keep);
    }
  }

  /** `xs.map(x => hit(x) ? change(x) : x)`: same length and order, every
      matching item rewritten, every other item untouched. */
  function UpdateWhere<T>(xs: seq<T>, hit: T -> bool, change: T -> T): (r: seq<T>)
    ensures |r| == |xs|
    ensures forall i :: 0 <= i < |xs| && hit(xs[i]) ==> r[i] == change(xs[i])
    ensures forall i :: 0 <= i < |xs| && !hit(xs[i]) ==> r[i] == xs[i]
  {
    if xs == [] then []
    else
      var rest := UpdateWhere(xs[1..], hit, change);
      [if hit(xs[0]) then change(xs[0]) else xs[0]] + rest
  }

  /** Rewriting twice changes nothing more, when the rewrite keeps an item
      matching and is itself idempotent. */
  lemma UpdateWhereIdempotent<T>(xs: seq<T>, hit: T -> bool, change: T -> T)
    requires forall x :: hit(x) ==> hit(change(x)) && change(change(x)) == change(x)
    ensures UpdateWhere(UpdateWhere(xs, hit, change), hit, change) == UpdateWhere(xs, hit, change)
  {
  }
}

=== FILE: net.dfy ===
/** The vocabulary the four list panels share with the remote API: what an
    awaited call produced, the shape of a list payload, the calls a handler
    issues, and the result of running one handler. */
module Net {

  /** What one awaited request produced: a value, or a rejection (network
      error or non-2xx status) that lands in the handler's `catch`. */
  datatype Outcome<+T> = Ok(value: T) | Err

  /** The `data` of a list response: a JSON array of records, or any other
      JSON value. */
  datatype Payload<+T> = Array(items: seq<T>) | NonArray

  /** What a panel holds in its list field when it stores the payload without
      checking it: an array, or a non-array value (an object or `null`) that
      has no `map`/`filter` method and cannot be spread. */
  datatype Listing<+T> = Rows(items: seq<T>) | NotAList

  /** The REST collections the panels read and write. */
  datatype Collection = Patients | Requests | Trackings | Incidents

  /** Request bodies; each carries exactly the fields its handler sends. */
  datatype Body =
    | NewRequest(patient: string)
    | NewPatient(name: string, priority: string)
    | NewTracking(name: string, status: string)
    | NewIncident(description: string, registeredBy: string)
    | StatusPatch(status: string)
    | PriorityPatch(priority: string)

  /** One HTTP request issued by a handler. */
  datatype Call =
    | Get(collection: Collection)
    | Post(collection: Collection, body: Body)
    | Patch(collection: Collection, id: string, body: Body)
    | Delete(collection: Collection, id: string)

  /** The effect of one handler run to completion: the component state
      afterwards and the requests it issued, in order. */
  datatype Step<S> = Step(state: S, calls: seq<Call>)
}

=== FILE: priorities.dfy ===
/** The priority-management panel: the patients of the "patients"
    collection, each with a priority, plus a draft name and priority for a
    new patient. Every successful mutation is followed by a fresh read. */
module PriorityPanel {
  import opened Js
  import opened Net

  /** The priorities, lowest first. */
  datatype Priority = Low | Medium | High

  function Label(p: Priority): string {
    match p
    case Low => "Baixa"
    case Medium => "Média"
    case High => "Alta"
  }

  /** The priority a label names, if any. */
  function Parse(s: string): (r: Option<Priority>)
    ensures r.Some? ==> Label(r.value) == s
    ensures r.None? ==> forall p: Priority :: Label(p) != s
  {
    if s == "Baixa" then Some(Low)
    else if s == "Média" then Some(Medium)
    else if s == "Alta" then Some(High)
    else None
  }

  /** The choices of both priority selectors, in the order shown. */
  const Options: seq<string> := [Label(Low), Label(Medium), Label(High)]

  /** The selectors offer exactly the three priorities, once each. */
  lemma OptionsAreThePriorities(s: string)
    ensures s in Options <==> Parse(s).Some?
    ensures forall i, j :: 0 <= i < j < |Options| ==> Options[i] != Options[j]
  {
  }

  /** A patient as the server returns it. */
  datatype Patient = Patient(id: string, name: string, priority: string)

  datatype State = State(patients: seq<Patient>, newPatientName: string, newPatientPriority: string)

  /** The constructor's state: no patients, an empty name, priority "Baixa". */
  function Init(): (s: State)
    ensures s.patients == [] && s.newPatientName == ""
    ensures Parse(s.newPatientPriority) == Some(Low)
  {
    State([], "", Label(Low))
  }

  /** `fetchPatients`: an array payload replaces the list; a non-array
      payload or a failed read leaves it as it was. */
  function Fetch(s: State, reply: Outcome<Payload<Patient>>): (r: Step<State>)
    ensures r.calls == [Get(Patients)]
    ensures reply.Ok? && reply.value.Array? ==> r.state == s.(patients := reply.value.items)
    ensures !(reply.Ok? && reply.value.Array?) ==> r.state == s
  {
    match reply
    case Ok(Array(items)) => Step(s.(patients := items), [Get(Patients)])
    case _ => Step(s, [Get(Patients)])
  }

  /** Run `call`; re-read the list if it succeeded, otherwise stop. */
  function ThenRefetch(s: State, call: Call, reply: Outcome<()>, refetch: Outcome<Payload<Patient>>): Step<State> {
    if reply.Err? then Step(s, [call])
    else
      var f := Fetch(s, refetch);
      Step(f.state, [call] + f.calls)
  }

  /** `handleChangePriority`: sends only the new priority for that id, then
      re-reads the list once; a failed patch changes nothing. */
  function HandleChangePriority(s: State, id: string, priority: string,
                                patch: Outcome<()>, refetch: Outcome<Payload<Patient>>): (r: Step<State>)
    ensures patch.Ok? ==> r.calls == [Patch(Patients, id, PriorityPatch(priority)), Get(Patients)]
                          && r.state == Fetch(s, refetch).state
    ensures patch.Err? ==> r == Step(s, [Patch(Patients, id, PriorityPatch(priority))])
  {
    ThenRefetch(s, Patch(Patients, id, PriorityPatch(priority)), patch, refetch)
  }

  /** `addPatient`: a blank name sends nothing; otherwise the draft is
      posted, and on success it is reset to "" / "Baixa" and the list
      re-read once. */
  function AddPatient(s: State, post: Outcome<()>, refetch: Outcome<Payload<Patient>>): (r: Step<State>)
    ensures IsBlank(s.newPatientName) ==> r == Step(s, [])
    ensures !IsBlank(s.newPatientName) && post.Err? ==>
              r == Step(s, [Post(Patients, NewPatient(s.newPatientName, s.newPatientPriority))])
    ensures !IsBlank(s.newPatientName) && post.Ok? ==>
              && r.calls == [Post(Patients, NewPatient(s.newPatientName, s.newPatientPriority)), Get(Patients)]
              && r.state.newPatientName == "" && Parse(r.state.newPatientPriority) == Some(Low)
              && (refetch.Ok? && refetch.value.Array? ==> r.state.patients == refetch.value.items)
              && (!(refetch.Ok? && refetch.value.Array?) ==> r.state.patients == s.patients)
  {
    if IsBlank(s.newPatientName) then Step(s, [])
    else
      var call := Post(Patients, NewPatient(s.newPatientName, s.newPatientPriority));
      if post.Err? then Step(s, [call])
      else ThenRefetch(s.(newPatientName := "", newPatientPriority := Label(Low)), call, post, refetch)
  }

  /** `removePatient`: deletes that id, then re-reads the list once; a
      failed delete changes nothing. */
  function RemovePatient(s: State, id: string, del: Outcome<()>, refetch: Outcome<Payload<Patient>>): (r: Step<State>)
    ensures del.Ok? ==> r.calls == [Delete(Patients, id), Get(Patients)] && r.state == Fetch(s, refetch).state
    ensures del.Err? ==> r == Step(s, [Delete(Patients, id)])
  {
    ThenRefetch(s, Delete(Patients, id), del, refetch)
  }

  /** What the list area shows. */
  datatype View = PatientRows(patients: seq<Patient>) | Placeholder(text: string)

  const EmptyText := "Nenhum paciente encontrado."

  /** The list area: the rows, or the placeholder when there are none. */
  function Render(s: State): (v: View)
    ensures v.Placeholder? <==> s.patients == []
    ensures v.Placeholder? ==> v.text == EmptyText
    ensures v.PatientRows? ==> v.patients == s.patients
  {
    if |s.patients| > 0 then PatientRows(s.patients) else Placeholder(EmptyText)
  }

  /** Unlike the transport panel, a bad read never empties a list already
      on screen. */
  lemma BadReadKeepsRows(s: State, reply: Outcome<Payload<Patient>>)
    requires s.patients != []
    requires !(reply.Ok? && reply.value.Array?)
    ensures Render(Fetch(s, reply).state) == PatientRows(s.patients)
  {
  }
}

=== FILE: routes.dfy ===
/** The application's route table, resolved the way React Router (v6)
    matches paths by default: a route path matches case-insensitively and
    trailing slashes are ignored; the "*" route matches what nothing more
    specific does. */
module AppRoutes {
  import opened Session

  datatype Page = SigninPage | SignupPage | DashboardPage

  /** The five `<Route>` entries, in the order they are declared. */
  datatype Route = SigninRoute | SignupRoute | DashboardRoute | RootRoute | CatchAll

  /** What a route renders: a page, or a `<Navigate>` to another path. */
  datatype Element = Render(page: Page) | Redirect(to: string)

  /** ASCII case folding. The route patterns are ASCII, and the
      non-Unicode case-insensitive regular expression the router builds
      never folds a non-ASCII character onto an ASCII one, so this folding
      decides a match exactly. */
  function Lower(c: char): char {
    if 'A' <= c <= 'Z' then (c as int + 32) as char else c
  }

  function LowerAll(s: string): (r: string)
    ensures |r| == |s|
    ensures forall i :: 0 <= i < |s| ==> r[i] == Lower(s[i])
  {
    if s == [] then [] else [Lower(s[0])] + LowerAll(s[1..])
  }

  /** `s` without its trailing slashes. */
  function TrimSlashes(s: string): (r: string)
    ensures |r| <= |s| && r == s[..|r|]
    ensures forall i :: |r| <= i < |s| ==> s[i] == '/'
    ensures r == [] || r[|r| - 1] != '/'
  {
    if s != [] && s[|s| - 1] == '/' then TrimSlashes(s[..|s| - 1]) else s
  }

  /** The router's pattern for a static route path: the path itself,
      compared case-insensitively, followed by any number of slashes. */
  predicate MatchesStatic(path: string, pattern: string) {
    LowerAll(TrimSlashes(path)) == pattern
  }

  /** The pattern of the "/" route: one or more slashes. */
  predicate MatchesRoot(path: string) {
    path != [] && forall i :: 0 <= i < |path| ==> path[i] == '/'
  }

  /** The route a location path selects. */
  function Resolve(path: string): (r: Route)
    ensures r == SigninRoute <==> MatchesStatic(path, SigninPath)
    ensures r == SignupRoute <==> MatchesStatic(path, SignupPath)
    ensures r == DashboardRoute <==> MatchesStatic(path, DashboardPath)
    ensures r == RootRoute <==> MatchesRoot(path)
  {
    PatternsDisjoint(path);
    if MatchesStatic(path, SigninPath) then SigninRoute
    else if MatchesStatic(path, SignupPath) then SignupRoute
    else if MatchesStatic(path, DashboardPath) then DashboardRoute
    else if MatchesRoot(path) then RootRoute
    else CatchAll
  }

  /** No path matches two of the route patterns, so the order of the
      `<Route>` entries cannot change the outcome. */
  lemma PatternsDisjoint(path: string)
    ensures MatchesRoot(path) ==>
              !MatchesStatic(path, SigninPath) && !MatchesStatic(path, SignupPath)
              && !MatchesStatic(path, DashboardPath)
    ensures !(MatchesStatic(path, SigninPath) && MatchesStatic(path, SignupPath))
    ensures !(MatchesStatic(path, SigninPath) && MatchesStatic(path, DashboardPath))
    ensures !(MatchesStatic(path, SignupPath) && MatchesStatic(path, DashboardPath))
  {
  }

  /** The element each route renders: the three pages, and a redirect to
      the sign-in page for both "/" and "*". */
  function ElementOf(r: Route): (e: Element)
    ensures e.Redirect? <==> r == RootRoute || r == CatchAll
    ensures e.Redirect? ==> e.to == SigninPath
    ensures r == SigninRoute ==> e == Render(SigninPage)
    ensures r == SignupRoute ==> e == Render(SignupPage)
    ensures r == DashboardRoute ==> e == Render(DashboardPage)
  {
    match r
    case SigninRoute => Render(SigninPage)
    case SignupRoute => Render(SignupPage)
    case DashboardRoute => Render(DashboardPage)
    case RootRoute => Redirect(SigninPath)
    case CatchAll => Redirect(SigninPath)
  }

  /** The paths the components navigate to select their own pages, and "/"
      selects the root redirect. */
  lemma KnownPaths()
    ensures Resolve(SigninPath) == SigninRoute
    ensures Resolve(SignupPath) == SignupRoute
    ensures Resolve(DashboardPath) == DashboardRoute
    ensures Resolve("/") == RootRoute
    ensures ElementOf(Resolve(SigninPath)) == Render(SigninPage)
    ensures ElementOf(Resolve(SignupPath)) == Render(SignupPage)
    ensures ElementOf(Resolve(DashboardPath)) == Render(DashboardPage)
  {
    SigninPathSelectsSignin();
    SignupPathSelectsSignup();
    DashboardPathSelectsDashboard();
    RootSelectsRoot();
  }

  lemma SigninPathSelectsSignin()
    ensures Resolve(SigninPath) == SigninRoute
  {
    OwnPatternMatches(SigninPath);
  }

  lemma SignupPathSelectsSignup()
    ensures Resolve(SignupPath) == SignupRoute
  {
    OwnPatternMatches(SignupPath);
  }

  lemma DashboardPathSelectsDashboard()
    ensures Resolve(DashboardPath) == DashboardRoute
  {
    OwnPatternMatches(DashboardPath);
  }

  lemma RootSelectsRoot()
    ensures Resolve("/") == RootRoute
  {
    assert TrimSlashes("/") == [];
  }

  /** A lower-case path that does not end in a slash matches its own
      pattern. */
  lemma OwnPatternMatches(p: string)
    requires p != [] && p[|p| - 1] != '/'
    requires forall i :: 0 <= i < |p| ==> !('A' <= p[i] <= 'Z')
    ensures MatchesStatic(p, p)
  {
    assert TrimSlashes(p) == p;
    assert LowerAll(p) == p;
  }

  /** Every path ends on a page after at most one redirect, and that
      redirect always lands on the sign-in page. */
  lemma OneRedirectAtMost(path: string)
    ensures var e := ElementOf(Resolve(path));
            e.Redirect? ==> ElementOf(Resolve(e.to)) == Render(SigninPage)
  {
  }

  /** `k` slashes. */
  function Slashes(k: nat): (r: string)
    ensures |r| == k && forall i :: 0 <= i < k ==> r[i] == '/'
  {
    if k == 0 then [] else Slashes(k - 1) + "/"
  }

  /** Trailing slashes appended to a path that does not end in one are
      exactly what `TrimSlashes` removes. */
  lemma {:induction false} TrimAppendedSlashes(p: string, k: nat)
    requires p == [] || p[|p| - 1] != '/'
    ensures TrimSlashes(p + Slashes(k)) == p
  {
    if k == 0 {
      assert p + Slashes(0) == p;
    } else {
      var q := p + Slashes(k);
      assert q[|q| - 1] == '/';
      assert q[..|q| - 1] == p + Slashes(k - 1);
      TrimAppendedSlashes(p, k - 1);
    }
  }

  /** Case and trailing slashes do not matter: any spelling of "/signin" in
      upper or lower case, followed by any number of slashes, selects the
      sign-in route. */
  lemma MixedCaseSignin(p: string, k: nat)
    requires LowerAll(p) == SigninPath
    ensures Resolve(p + Slashes(k)) == SigninRoute
  {
    assert LowerAll(p)[|p| - 1] == 'n';
    TrimAppendedSlashes(p, k);
  }

  /** For instance "/SignIn//". */
  lemma MixedCaseExample()
    ensures Resolve("/SignIn//") == SigninRoute
  {
    assert LowerAll("/SignIn") == SigninPath;
    assert "/SignIn" + Slashes(2) == "/SignIn//";
    MixedCaseSignin("/SignIn", 2);
  }
}

=== FILE: session.dfy ===
/** Notifications, navigation targets and the one piece of client-owned
    state: the user record kept in the browser's storage under "userData". */
module Session {
  import opened Js
  import opened Net

  /** The paths components navigate to. */
  const SigninPath := "/signin"
  const SignupPath := "/signup"
  const DashboardPath := "/dashboard"

  datatype ToastKind = Success | Error

  /** A transient notification. */
  datatype Toast = Toast(kind: ToastKind, title: string, description: string)

  /** The user record returned by the sign-in endpoint. */
  datatype User = User(id: string, name: string, email: string, role: Nullable)

  /** The "userData" storage entry: missing, the serialisation of a user
      record, or the text "undefined" (what `setItem` stores for
      `JSON.stringify(undefined)`). */
  datatype Slot = Empty | Saved(user: User) | SavedUndefined

  /** `localStorage.setItem("userData", JSON.stringify(user))`. */
  function Store(user: Option<User>): (r: Slot)
    ensures r != Empty
    ensures r.Saved? <==> user.Some?
    ensures user.Some? ==> r.user == user.value
  {
    match user
    case Some(u) => Saved(u)
    case None => SavedUndefined
  }

  /** `JSON.parse(localStorage.getItem("userData"))`: a missing entry reads
      as `null`, and parsing the text "undefined" throws (`Err`). */
  function Load(slot: Slot): (r: Outcome<Option<User>>)
    ensures r == Ok(None) <==> slot == Empty
    ensures r.Err? <==> slot == SavedUndefined
  {
    match slot
    case Empty => Ok(None)
    case Saved(u) => Ok(Some(u))
    case SavedUndefined => Err
  }

  /** Reading back what was stored gives the stored user; storing a missing
      user makes the next read throw. */
  lemma StoreLoadRoundTrip(user: Option<User>)
    ensures user.Some? ==> Load(Store(user)) == Ok(user)
    ensures user.None? ==> Load(Store(user)).Err?
  {
  }

  /** `localStorage.removeItem("userData")`: the next read finds no user. */
  function Clear(): (r: Slot)
    ensures Load(r) == Ok(None)
  {
    Empty
  }

  /** The outcome of a page's mount guard: the page state afterwards and
      the router target, or an uncaught exception when the stored text does
      not parse. */
  datatype Mount<S> = Mounted(state: S, navigate: Option<string>) | Crashed

  /** The effect of a logout: the storage entry afterwards, the
      notification and the router target. */
  datatype Logout = Logout(slot: Slot, toast: Toast, navigate: string)
}

=== FILE: signin.dfy ===
/** The sign-in form: its schema, and what one submission does to the
    notification, the router and the stored session. */
module SigninForm {
  import opened Js
  import opened Session
  import opened Forms

  datatype Values = Values(email: string, password: string)

  /** What the schema demands, stated field by field. */
  predicate Acceptable(v: Values, isEmail: string -> bool) {
    v.email != "" && isEmail(v.email) && |v.password| >= MinPasswordLength
  }

  /** `SigninSchema`: the set of rules the values break. */
  function Violations(v: Values, isEmail: string -> bool): (r: set<Rule>)
    ensures r == {} <==> Acceptable(v, isEmail)
    ensures r <= {EmailRequired, EmailInvalid, PasswordRequired, PasswordTooShort}
    ensures EmailRequired in r <==> v.email == ""
    ensures EmailInvalid in r <==> v.email != "" && !isEmail(v.email)
    ensures PasswordRequired in r <==> v.password == ""
    ensures PasswordTooShort in r <==> 0 < |v.password| < MinPasswordLength
  {
    EmailRules(v.email, isEmail) + PasswordRules(v.password)
  }

  const SuccessToast := Toast(Success, "Login bem-sucedido", "Você entrou com sucesso.")
  const FailureTitle := "Erro no login"
  const FallbackMessage := "Ocorreu um erro ao fazer login."

  /** `handleLogin`: on an ok response the returned user is stored and the
      router goes to the dashboard; on any other outcome nothing is stored
      and the router stays. `isSubmitting` is cleared on every path. */
  function HandleLogin(v: Values, slot: Slot, reply: Reply): (r: Effect)
    ensures r.calls == [SigninPost(v.email, v.password)]
    ensures r.errors == {} && !r.submitting
    ensures r.navigate.Some? <==> reply.Replied? && reply.ok
    ensures reply.Replied? && reply.ok ==>
              r.slot == Store(reply.data.user) && r.navigate == Some(DashboardPath)
              && r.toast == Some(SuccessToast)
    ensures reply.Replied? && !reply.ok ==>
              r.slot == slot
              && r.toast == Some(Toast(Error, FailureTitle, OrElse(reply.data.message, FallbackMessage)))
    ensures reply.Threw? ==>
              r.slot == slot && r.toast == Some(Toast(Error, FailureTitle, FallbackMessage))
  {
    var call := [SigninPost(v.email, v.password)];
    match reply
    case Replied(ok, data) =>
      if ok then Effect({}, call, Some(SuccessToast), Some(DashboardPath), Store(data.user), false)
      else Effect({}, call, Some(Toast(Error, FailureTitle, OrElse(data.message, FallbackMessage))), None, slot, false)
    case Threw =>
      Effect({}, call, Some(Toast(Error, FailureTitle, FallbackMessage)), None, slot, false)
  }

  /** A submission: Formik runs the schema first and calls `handleLogin`
      only when nothing is broken. */
  function Submit(v: Values, isEmail: string -> bool, slot: Slot, reply: Reply): (r: Effect)
    ensures r.calls != [] <==> Acceptable(v, isEmail)
    ensures !Acceptable(v, isEmail) ==>
              r.errors == Violations(v, isEmail) && r.slot == slot && r.navigate == None && r.toast == None
    ensures r.slot != slot ==> Acceptable(v, isEmail) && reply.Replied? && reply.ok
    ensures r.calls != [] ==> r.calls == [SigninPost(v.email, v.password)]
    ensures Acceptable(v, isEmail) && reply.Replied? && reply.ok ==>
              r.slot == Store(reply.data.user) && r.navigate == Some(DashboardPath)
              && r.toast == Some(SuccessToast)
    ensures Acceptable(v, isEmail) && !(reply.Replied? && reply.ok) ==>
              r.slot == slot && r.navigate == None
    ensures Acceptable(v, isEmail) && reply.Replied? && !reply.ok ==>
              r.toast == Some(Toast(Error, FailureTitle, OrElse(reply.data.message, FallbackMessage)))
    ensures Acceptable(v, isEmail) && reply.Threw? ==>
              r.toast == Some(Toast(Error, FailureTitle, FallbackMessage))
    ensures !r.submitting
  {
    var errors := Violations(v, isEmail);
    if errors != {} then Rejected(errors, slot) else HandleLogin(v, slot, reply)
  }

  /** A malformed email never reaches the server. */
  lemma MalformedEmailNeverRequests(v: Values, isEmail: string -> bool, slot: Slot, reply: Reply)
    requires !isEmail(v.email)
    ensures Submit(v, isEmail, slot, reply).calls == []
    ensures Submit(v, isEmail, slot, reply).slot == slot
  {
  }

  /** A 401 with `{message: "invalid credentials"}`: that message is shown,
      nothing is stored and the router stays. */
  lemma RejectedCredentials(v: Values, isEmail: string -> bool, slot: Slot, user: Option<User>)
    requires Acceptable(v, isEmail)
    ensures var r := Submit(v, isEmail, slot, Replied(false, Data(Some("invalid credentials"), user)));
            r.toast == Some(Toast(Error, FailureTitle, "invalid credentials"))
            && r.navigate == None && r.slot == slot
  {
  }
}

=== FILE: signup.dfy ===
/** The sign-up form: its schema, and what one submission does. */
module SignupForm {
  import opened Js
  import opened Session
  import opened Forms

  datatype Values = Values(name: string, email: string, password: string, confirmPassword: string)

  /** What the schema demands, stated field by field. */
  predicate Acceptable(v: Values, isEmail: string -> bool) {
    && v.name != ""
    && v.email != "" && isEmail(v.email)
    && |v.password| >= MinPasswordLength
    && v.confirmPassword == v.password
  }

  /** `SignupSchema`: the set of rules the values break. */
  function Violations(v: Values, isEmail: string -> bool): (r: set<Rule>)
    ensures r == {} <==> Acceptable(v, isEmail)
    ensures NameRequired in r <==> v.name == ""
    ensures EmailRequired in r <==> v.email == ""
    ensures EmailInvalid in r <==> v.email != "" && !isEmail(v.email)
    ensures PasswordRequired in r <==> v.password == ""
    ensures PasswordTooShort in r <==> 0 < |v.password| < MinPasswordLength
    ensures ConfirmRequired in r <==> v.confirmPassword == ""
    ensures ConfirmMismatch in r <==> v.confirmPassword != "" && v.confirmPassword != v.password
  {
    (if v.name == "" then {NameRequired} else {})
    + EmailRules(v.email, isEmail)
    + PasswordRules(v.password)
    + ConfirmRules(v.password, v.confirmPassword)
  }

  /** `string().oneOf([ref("password"), null]).required()`. An empty
      confirmation reaches yup as `undefined`, which `oneOf` lets through,
      so it breaks only the required rule. */
  function ConfirmRules(password: string, confirmPassword: string): (r: set<Rule>)
    ensures r <= {ConfirmRequired, ConfirmMismatch}
    ensures r == {} <==> confirmPassword != "" && confirmPassword == password
    ensures ConfirmRequired in r <==> confirmPassword == ""
    ensures ConfirmMismatch in r <==> confirmPassword != "" && confirmPassword != password
  {
    if confirmPassword == "" then {ConfirmRequired}
    else if confirmPassword != password then {ConfirmMismatch}
    else {}
  }

  /** No field breaks two rules at once, so the one message Formik shows
      under a field is the only rule it broke. */
  lemma OneRulePerField(v: Values, isEmail: string -> bool)
    ensures var r := Violations(v, isEmail);
            && !(EmailRequired in r && EmailInvalid in r)
            && !(PasswordRequired in r && PasswordTooShort in r)
            && !(ConfirmRequired in r && ConfirmMismatch in r)
  {
  }

  const MismatchToast := Toast(Error, "Erro na confirmação", "As senhas não coincidem.")
  const SuccessToast := Toast(Success, "Cadastro bem-sucedido", "Você se cadastrou com sucesso.")
  const FailureTitle := "Erro no cadastro"
  const FallbackMessage := "Ocorreu um erro durante o cadastro."

  /** The POST this form sends: every field, the confirmation included. */
  function Request(v: Values): AuthCall {
    SignupPost(v.name, v.email, v.password, v.confirmPassword)
  }

  /** The body loses nothing: two forms send the same request exactly when
      all four fields agree. */
  lemma RequestIsWholeForm(v: Values, w: Values)
    ensures Request(v) == Request(w) <==> v == w
  {
  }

  /** `handleSignup`: stores nothing, always clears `isSubmitting`, goes to
      the sign-in page only on an ok response. */
  function HandleSignup(v: Values, slot: Slot, reply: Reply): (r: Effect)
    ensures r.slot == slot && !r.submitting && r.errors == {}
    ensures v.password != v.confirmPassword ==>
              r.calls == [] && r.toast == Some(MismatchToast) && r.navigate == None
    ensures v.password == v.confirmPassword ==> r.calls == [Request(v)]
    ensures r.navigate.Some? <==> v.password == v.confirmPassword && reply.Replied? && reply.ok
    ensures r.navigate.Some? ==> r.navigate == Some(SigninPath) && r.toast == Some(SuccessToast)
    ensures v.password == v.confirmPassword && reply.Replied? && !reply.ok ==>
              r.toast == Some(Toast(Error, FailureTitle, OrElse(reply.data.message, FallbackMessage)))
    ensures v.password == v.confirmPassword && reply.Threw? ==>
              r.toast == Some(Toast(Error, FailureTitle, FallbackMessage))
  {
    if v.password != v.confirmPassword then
      Effect({}, [], Some(MismatchToast), None, slot, false)
    else
      var (toast, navigate) :=
        match reply
        case Replied(ok, data) =>
          if ok then (SuccessToast, Some(SigninPath))
          else (Toast(Error, FailureTitle, OrElse(data.message, FallbackMessage)), None)
        case Threw => (Toast(Error, FailureTitle, FallbackMessage), None);
      Effect({}, [Request(v)], Some(toast), navigate, slot, false)
  }

  /** A submission: Formik runs the schema first and calls `handleSignup`
      only when nothing is broken. A request goes out exactly when the
      schema accepts, so the handler's own mismatch check never fires. */
  function Submit(v: Values, isEmail: string -> bool, slot: Slot, reply: Reply): (r: Effect)
    ensures r.calls != [] <==> Acceptable(v, isEmail)
    ensures r.calls != [] ==> r.calls == [Request(v)]
    ensures !Acceptable(v, isEmail) ==>
              r.errors == Violations(v, isEmail) && r.toast == None && r.navigate == None
    ensures r.slot == slot && !r.submitting
    ensures r.navigate.Some? <==> Acceptable(v, isEmail) && reply.Replied? && reply.ok
    ensures r.navigate.Some? ==> r.navigate == Some(SigninPath) && r.toast == Some(SuccessToast)
    ensures Acceptable(v, isEmail) && reply.Replied? && !reply.ok ==>
              r.toast == Some(Toast(Error, FailureTitle, OrElse(reply.data.message, FallbackMessage)))
    ensures Acceptable(v, isEmail) && reply.Threw? ==>
              r.toast == Some(Toast(Error, FailureTitle, FallbackMessage))
  {
    var errors := Violations(v, isEmail);
    if errors != {} then Rejected(errors, slot) else HandleSignup(v, slot, reply)
  }

  /** A confirmation that differs from the password never reaches the
      server. The schema reports it as a mismatch, or, when it is empty, as
      missing. */
  lemma MismatchNeverRequests(v: Values, isEmail: string -> bool, slot: Slot, reply: Reply)
    requires v.confirmPassword != v.password
    ensures Submit(v, isEmail, slot, reply).calls == []
    ensures v.confirmPassword != "" ==> ConfirmMismatch in Submit(v, isEmail, slot, reply).errors
    ensures v.confirmPassword == "" ==>
              && ConfirmRequired in Submit(v, isEmail, slot, reply).errors
              && ConfirmMismatch !in Submit(v, isEmail, slot, reply).errors
  {
  }

  /** Sign-up of "Ana" with matching six-character passwords against a
      server that accepts: success notice, then the sign-in page. */
  lemma AnaSignsUp(isEmail: string -> bool, slot: Slot, data: Data)
    requires isEmail("ana@x.com")
    ensures var r := Submit(Values("Ana", "ana@x.com", "abcdef", "abcdef"), isEmail, slot, Replied(true, data));
            r.toast == Some(SuccessToast) && r.navigate == Some(SigninPath) && r.slot == slot
  {
  }
}

=== FILE: tracking.dfy ===
/** The patient-tracking panel: the records of the "trackings" collection,
    each with a tracking status, plus a draft name and status. Unlike the
    transport and priority panels it edits its list locally after the
    server acknowledges, and it stores a list payload without checking that
    it is an array. */
module TrackingPanel {
  import opened Js
  import opened Net
  import Lists

  /** The tracking states, in the order a transfer goes through them. */
  datatype Status = Awaiting | Moving | Arrived

  function Label(st: Status): string {
    match st
    case Awaiting => "Aguardando transporte"
    case Moving => "Em transporte"
    case Arrived => "Chegou ao destino"
  }

  /** The status a label names, if any. */
  function Parse(s: string): (r: Option<Status>)
    ensures r.Some? ==> Label(r.value) == s
    ensures r.None? ==> forall st: Status :: Label(st) != s
  {
    if s == "Aguardando transporte" then Some(Awaiting)
    else if s == "Em transporte" then Some(Moving)
    else if s == "Chegou ao destino" then Some(Arrived)
    else None
  }

  /** The choices of both status selectors, in the order shown. */
  const Options: seq<string> := [Label(Awaiting), Label(Moving), Label(Arrived)]

  /** The selectors offer exactly the three tracking states, once each. */
  lemma OptionsAreTheStatuses(s: string)
    ensures s in Options <==> Parse(s).Some?
    ensures forall i, j :: 0 <= i < j < |Options| ==> Options[i] != Options[j]
  {
  }

  /** A tracking record as the server returns it. */
  datatype Tracking = Tracking(id: string, name: string, status: string)

  datatype State = State(trackings: Listing<Tracking>, newTrackingName: string, newTrackingStatus: string)

  function Init(): (s: State)
    ensures s.trackings == Rows([]) && s.newTrackingName == ""
    ensures Parse(s.newTrackingStatus) == Some(Awaiting)
  {
    State(Rows([]), "", Label(Awaiting))
  }

  /** `fetchTrackings`: whatever the read returns replaces the list, array
      or not; a failed read leaves it as it was. */
  function Fetch(s: State, reply: Outcome<Payload<Tracking>>): (r: Step<State>)
    ensures r.calls == [Get(Trackings)]
    ensures reply == Ok(NonArray) ==> r.state == s.(trackings := NotAList)
    ensures reply.Ok? && reply.value.Array? ==> r.state == s.(trackings := Rows(reply.value.items))
    ensures reply.Err? ==> r.state == s
  {
    match reply
    case Ok(Array(items)) => Step(s.(trackings := Rows(items)), [Get(Trackings)])
    case Ok(NonArray) => Step(s.(trackings := NotAList), [Get(Trackings)])
    case Err => Step(s, [Get(Trackings)])
  }

  /** `addTracking`: a blank name sends nothing. Otherwise the draft is
      posted; when the server answers, its record is appended at the end and
      the draft reset to "" / "Aguardando transporte". A failed post, or a
      list that is not an array (the spread throws inside the `try`),
      leaves the state alone. */
  function AddTracking(s: State, post: Outcome<Tracking>): (r: Step<State>)
    ensures IsBlank(s.newTrackingName) ==> r == Step(s, [])
    ensures !IsBlank(s.newTrackingName) ==>
              r.calls == [Post(Trackings, NewTracking(s.newTrackingName, s.newTrackingStatus))]
    ensures !IsBlank(s.newTrackingName) && post.Ok? && s.trackings.Rows? ==>
              && r.state.trackings == Rows(s.trackings.items + [post.value])
              && r.state.newTrackingName == "" && Parse(r.state.newTrackingStatus) == Some(Awaiting)
    ensures post.Err? || s.trackings.NotAList? ==> r.state == s
  {
    if IsBlank(s.newTrackingName) then Step(s, [])
    else
      var call := Post(Trackings, NewTracking(s.newTrackingName, s.newTrackingStatus));
      match (post, s.trackings)
      case (Ok(record), Rows(items)) =>
        Step(State(Rows(items + [record]), "", Label(Awaiting)), [call])
      case _ => Step(s, [call])
  }

  /** The local edit after a status patch: every record with that id gets
      the new status. */
  function SetStatus(items: seq<Tracking>, id: string, status: string): (r: seq<Tracking>)
    ensures |r| == |items|
    ensures forall i :: 0 <= i < |items| && items[i].id == id ==>
              r[i] == items[i].(status := status)
    ensures forall i :: 0 <= i < |items| && items[i].id != id ==> r[i] == items[i]
  {
    Lists.UpdateWhere(items, (t: Tracking) => t.id == id, (t: Tracking) => t.(status := status))
  }

  /** `updateStatus`: sends only the new status for that id; on success the
      local list is rewritten by id, keeping length, order and every other
      record. A failed patch, or a list that is not an array, leaves the
      state alone. */
  function UpdateStatus(s: State, id: string, status: string, patch: Outcome<()>): (r: Step<State>)
    ensures r.calls == [Patch(Trackings, id, StatusPatch(status))]
    ensures r.state.newTrackingName == s.newTrackingName
    ensures r.state.newTrackingStatus == s.newTrackingStatus
    ensures patch.Ok? && s.trackings.Rows? ==> r.state.trackings == Rows(SetStatus(s.trackings.items, id, status))
    ensures patch.Err? || s.trackings.NotAList? ==> r.state == s
  {
    var call := Patch(Trackings, id, StatusPatch(status));
    match (patch, s.trackings)
    case (Ok(_), Rows(items)) => Step(s.(trackings := Rows(SetStatus(items, id, status))), [call])
    case _ => Step(s, [call])
  }

  /** Setting the same status twice is setting it once. */
  lemma SetStatusIdempotent(items: seq<Tracking>, id: string, status: string)
    ensures SetStatus(SetStatus(items, id, status), id, status) == SetStatus(items, id, status)
  {
    Lists.UpdateWhereIdempotent(items, (t: Tracking) => t.id == id, (t: Tracking) => t.(status := status));
  }

  /** A status update never changes which records are listed: ids and names
      stay where they were. */
  lemma SetStatusKeepsIdentities(items: seq<Tracking>, id: string, status: string)
    ensures var r := SetStatus(items, id, status);
            forall i :: 0 <= i < |items| ==> r[i].id == items[i].id && r[i].name == items[i].name
  {
  }

  /** What the panel renders: the rows, or a render error when the list
      field holds a non-array (`trackings.map` is not a function). */
  datatype View = TrackingRows(rows: seq<Tracking>) | RenderCrash

  function Render(s: State): (v: View)
    ensures v.RenderCrash? <==> s.trackings.NotAList?
    ensures v.TrackingRows? ==> s.trackings == Rows(v.rows)
  {
    match s.trackings
    case Rows(items) => TrackingRows(items)
    case NotAList => RenderCrash
  }

  /** A read that answers with a non-array breaks the next render, whatever
      was on screen before. */
  lemma NonArrayReadBreaksRender(s: State)
    ensures Render(Fetch(s, Ok(NonArray)).state) == RenderCrash
  {
  }

  /** A successful add shows the old rows followed by the server's record;
      a status update of that record then rewrites the last row alone,
      provided no older record shares its id. */
  lemma AddThenUpdate(s: State, record: Tracking, status: string)
    requires !IsBlank(s.newTrackingName) && s.trackings.Rows?
    requires forall i :: 0 <= i < |s.trackings.items| ==> s.trackings.items[i].id != record.id
    ensures var added := AddTracking(s, Ok(record)).state;
            && Render(added) == TrackingRows(s.trackings.items + [record])
            && Render(UpdateStatus(added, record.id, status, Ok(())).state)
                 == TrackingRows(s.trackings.items + [record.(status := status)])
  {
    var items := s.trackings.items;
    assert SetStatus(items + [record], record.id, status) == items + [record.(status := status)];
  }
}

=== FILE: transport.dfy ===
/** The transport-scheduling panel: a list of transport requests read from
    the "requests" collection, a draft patient name, and a status filter.
    Every successful mutation is followed by a fresh read of the list. */
module TransportPanel {
  import opened Js
  import opened Net
  import Lists

  /** The statuses a transport request goes through. */
  datatype Status = Pending | Accepted | Rejected

  function Label(st: Status): string {
    match st
    case Pending => "Pendente"
    case Accepted => "Aceita"
    case Rejected => "Recusada"
  }

  /** The status a label names, if any. */
  function Parse(s: string): (r: Option<Status>)
    ensures r.Some? ==> Label(r.value) == s
    ensures r.None? ==> forall st: Status :: Label(st) != s
  {
    if s == "Pendente" then Some(Pending)
    else if s == "Aceita" then Some(Accepted)
    else if s == "Recusada" then Some(Rejected)
    else None
  }

  /** A request as the server returns it; the status is whatever text the
      server holds. */
  datatype Request = Request(id: string, patient: string, status: string)

  datatype State = State(requests: seq<Request>, newPatient: string, filter: string)

  /** The filter value that shows every request. */
  const ShowAll := "Todos"

  /** The values the filter selector offers: its placeholder entry (value
      ""), "Todos" and the three status labels. */
  const FilterOptions: seq<string> := ["", ShowAll, Label(Pending), Label(Accepted), Label(Rejected)]

  function Init(): (s: State)
    ensures s.requests == [] && s.newPatient == ""
    ensures s.filter == ShowAll
  {
    State([], "", ShowAll)
  }

  /** `fetchRequests`: an array payload replaces the list; a non-array
      payload or a failed read empties it. */
  function Fetch(s: State, reply: Outcome<Payload<Request>>): (r: Step<State>)
    ensures r.calls == [Get(Requests)]
    ensures reply.Ok? && reply.value.Array? ==> r.state.requests == reply.value.items
    ensures !(reply.Ok? && reply.value.Array?) ==> r.state.requests == []
    ensures r.state.newPatient == s.newPatient && r.state.filter == s.filter
  {
    var requests := match reply
      case Ok(Array(items)) => items
      case _ => [];
    Step(s.(requests := requests), [Get(Requests)])
  }

  /** The list on screen (`filteredRequests`): fetched requests, in order,
      each showing the chosen status unless the filter is "Todos". */
  function Visible(s: State): (r: seq<Request>)
    ensures Lists.IsSubsequence(r, s.requests)
    ensures forall i :: 0 <= i < |r| ==> s.filter == ShowAll || r[i].status == s.filter
  {
    Lists.Filter(s.requests, (req: Request) => s.filter == ShowAll || req.status == s.filter)
  }

  /** "Todos" shows the fetched list as it is. */
  lemma {:induction false} ShowAllShowsEverything(s: State)
    requires s.filter == ShowAll
    ensures Visible(s) == s.requests
  {
    Lists.FilterKeepsAll(s.requests, (req: Request) => s.filter == ShowAll || req.status == s.filter);
  }

  /** Any other filter shows, in fetched order, exactly the requests whose
      status equals the filter, each as often as it was fetched. */
  lemma FilterShowsExactlyMatching(s: State)
    requires s.filter != ShowAll
    ensures Lists.IsSubsequence(Visible(s), s.requests)
    ensures forall i :: 0 <= i < |Visible(s)| ==> Visible(s)[i].status == s.filter
    ensures forall req :: multiset(Visible(s))[req] ==
              if req.status == s.filter then multiset(s.requests)[req] else 0
  {
  }

  /** What a read puts on screen: nothing after a non-array or failed read,
      whatever the filter; under "Todos", exactly the array that came back. */
  lemma FetchThenShow(s: State, reply: Outcome<Payload<Request>>)
    ensures !(reply.Ok? && reply.value.Array?) ==> Visible(Fetch(s, reply).state) == []
    ensures reply.Ok? && reply.value.Array? && s.filter == ShowAll ==>
              Visible(Fetch(s, reply).state) == reply.value.items
  {
    if reply.Ok? && reply.value.Array? && s.filter == ShowAll {
      ShowAllShowsEverything(Fetch(s, reply).state);
    }
  }

  /** Three requests, one per status: filtering by "Pendente" shows the
      pending one only. */
  lemma PendingScenario(a: Request, b: Request, c: Request)
    requires a.status == "Pendente" && b.status == "Aceita" && c.status == "Recusada"
    ensures Visible(State([a, b, c], "", "Pendente")) == [a]
  {
  }

  /** The selector offers its placeholder, "Todos" and each status label,
      every entry once, and a status label names its status. */
  lemma FilterOptionsCoverStatuses(st: Status)
    ensures Label(st) in FilterOptions[2..] && Parse(Label(st)) == Some(st)
    ensures forall o :: o in FilterOptions ==> o == "" || o == ShowAll || Parse(o).Some?
    ensures forall i, j :: 0 <= i < j < |FilterOptions| ==> FilterOptions[i] != FilterOptions[j]
  {
  }

  /** Picking the placeholder entry sets the filter to "", which no status
      label equals: every request with a known status disappears. */
  lemma PlaceholderHidesEveryStatus(s: State)
    requires s.filter == ""
    ensures forall i :: 0 <= i < |Visible(s)| ==> Parse(Visible(s)[i].status) == None
  {
  }

  /** Choosing a filter value is local: no request, nothing else changes. */
  function ChooseFilter(s: State, value: string): (r: Step<State>)
    ensures r.calls == [] && r.state.filter == value
    ensures r.state.requests == s.requests && r.state.newPatient == s.newPatient
  {
    Step(s.(filter := value), [])
  }

  /** The buttons a request row carries. */
  datatype Action = Accept | Reject

  /** Accept and reject are offered together, and only on pending rows. */
  function Offered(req: Request): (r: set<Action>)
    ensures r == {} || r == {Accept, Reject}
    ensures Accept in r <==> Parse(req.status) == Some(Pending)
  {
    if req.status == Label(Pending) then {Accept, Reject} else {}
  }

  /** Patch one request's status, then re-read the list if the patch
      succeeded; a failed patch changes nothing. */
  function Decide(s: State, id: string, verdict: Status,
                  patch: Outcome<()>, refetch: Outcome<Payload<Request>>): Step<State>
  {
    var call := Patch(Requests, id, StatusPatch(Label(verdict)));
    if patch.Err? then Step(s, [call])
    else
      var f := Fetch(s, refetch);
      Step(f.state, [call] + f.calls)
  }

  /** `handleAccept`: sends only `status: "Aceita"` for that id; on success
      re-reads the list once, on failure leaves the state alone. */
  function HandleAccept(s: State, id: string, patch: Outcome<()>, refetch: Outcome<Payload<Request>>): (r: Step<State>)
    ensures patch.Ok? ==> r.calls == [Patch(Requests, id, StatusPatch("Aceita")), Get(Requests)]
    ensures patch.Ok? ==> r.state == Fetch(s, refetch).state
    ensures patch.Err? ==> r == Step(s, [Patch(Requests, id, StatusPatch("Aceita"))])
  {
    Decide(s, id, Accepted, patch, refetch)
  }

  /** `handleReject`: sends only `status: "Recusada"` for that id; on
      success re-reads the list once, on failure leaves the state alone. */
  function HandleReject(s: State, id: string, patch: Outcome<()>, refetch: Outcome<Payload<Request>>): (r: Step<State>)
    ensures patch.Ok? ==> r.calls == [Patch(Requests, id, StatusPatch("Recusada")), Get(Requests)]
    ensures patch.Ok? ==> r.state == Fetch(s, refetch).state
    ensures patch.Err? ==> r == Step(s, [Patch(Requests, id, StatusPatch("Recusada"))])
  {
    Decide(s, id, Rejected, patch, refetch)
  }

  /** `handleAddRequest`: a blank draft sends nothing and changes nothing;
      otherwise the draft is posted as it was typed, and on success the
      draft is cleared and the list re-read once. */
  function HandleAdd(s: State, post: Outcome<()>, refetch: Outcome<Payload<Request>>): (r: Step<State>)
    ensures IsBlank(s.newPatient) ==> r == Step(s, [])
    ensures !IsBlank(s.newPatient) && post.Err? ==> r == Step(s, [Post(Requests, NewRequest(s.newPatient))])
    ensures !IsBlank(s.newPatient) && post.Ok? ==>
              && r.calls == [Post(Requests, NewRequest(s.newPatient)), Get(Requests)]
              && r.state.newPatient == "" && r.state.filter == s.filter
              && r.state.requests == Fetch(s, refetch).state.requests
  {
    if IsBlank(s.newPatient) then Step(s, [])
    else
      var call := Post(Requests, NewRequest(s.newPatient));
      if post.Err? then Step(s, [call])
      else
        var f := Fetch(s.(newPatient := ""), refetch);
        Step(f.state, [call] + f.calls)
  }

  /** A second click right after a successful add sends nothing: the draft
      is empty by then. */
  lemma AddTwiceSendsOnce(s: State, post: Outcome<()>, refetch: Outcome<Payload<Request>>,
                          post2: Outcome<()>, refetch2: Outcome<Payload<Request>>)
    requires !IsBlank(s.newPatient) && post.Ok?
    ensures var first := HandleAdd(s, post, refetch);
            HandleAdd(first.state, post2, refetch2) == Step(first.state, [])
  {
  }
}
